=== FILE: README.md ===
# Health probe: a verified model of the poll-parse-evaluate cycle

The program polls one HTTP endpoint every 15 seconds. The endpoint returns the
target host's resource statistics as seven comma-separated decimal integers:
load average, RAM total, RAM used, disk total, disk used, network bandwidth and
network load. The probe parses the payload into a `Metrics` record and applies
four threshold rules: load above 30, memory above 80 %, disk above 90 % and
network above 90 %. It writes one line per rule that fires. It also counts
consecutive failed cycles. From the third failure in a row on, every further
failure also writes an "unable to fetch" line. A successful cycle clears the
count.

The model is split into these modules:

- `Wrappers` (wrappers.dfy): `Option` and `Result`.
- `Strconv` (strconv.dfy): Go's `strconv.Atoi` on a 64-bit platform, with decimal rendering (`Itoa`) as its inverse.
- `Strings` (strings.dfy): Go's `strings.Split` on one separator character, with `Join` as its inverse.
- `Payload` (metrics.dfy): the `Metrics` record and the payload decoder.
  - `ParseMetrics` and `GetMetrics` are methods written in the source's early-return style.
  - Each is proved equal to a specification function, `ParseResult` or `MetricsResult`.
  - The lemmas are proved about those functions.
- `Evaluator` (evaluator.dfy): the percentage computation, the four rules, and `Evaluate`, which gives the alerts a snapshot raises.
- `Monitor` (monitor.dfy): the cycle itself.
  - A `Probe` class holds the failure counter and the output written so far.
  - `Probe.CheckMetrics` is proved against the one-cycle function `Step`.
  - `Step` takes what fetch-and-parse returned: a snapshot or an error.
  - `FailuresAfter` folds `Step` over a sequence of such results. It is used for the lemmas about runs of cycles.

Inputs and outputs:

- The HTTP exchange is an input value, `Response`. It is one of: a transport error, a read error, or the body text returned by the single read.
- Output lines are `Event` values: the cycle's error, the "unavailable" diagnostic, or an `Alert`. An `Alert` carries the rule that fired and its magnitude.

Points where main.go's behaviour is easy to misread, modelled as the code has them:

- The field separator is a comma only.
- Empty pieces do not count as a field-count error. `",,,,,,"` splits into seven pieces, and parsing then fails on `LoadAverage`.
- The "unavailable" line is written on every failure once the counter is at least 3, not once.
- `calculatePercentage` returns a whole number (it is rounded down).

## Model

| member | source | states |
|---|---|---|
| `Strconv.Atoi` | main.go:121-141 | A piece converts only if it is an optional sign followed by one or more digits and nothing else, so a lone `+` or `-` fails. The value then lies in the 64-bit `int` range, and a negative value carries a `-`. A well-formed piece whose value is out of range fails (`AtoiRejectsOutOfRange`). |
| `Strconv.AtoiAccepts` | main.go:121-141 | Conversely, a sign (none, `+` or `-`) followed by one or more digits converts whenever its value fits in 64 bits. The result is the value the sign and digits denote, leading zeros included. |
| `Strconv.AtoiRejectsOutOfRange` | main.go:121-141 | A sign followed by one or more digits whose value lies outside the 64-bit `int` range never converts; Go reports a range error there. |
| `Strconv.AtoiExamples` | main.go:121-141 | `"+5"`, `"007"` and `"-0"` convert to 5, 7 and 0. |
| `Strconv.AtoiItoa` | main.go:121-141 | Every 64-bit integer, written in decimal, converts back to itself. |
| `Strconv.AtoiRejectsTrailingNewline` | main.go:139-141 | A piece ending in a line break never converts. |
| `Strings.Split` | main.go:106 | Splitting gives one more piece than there are separators (`Count`), and no piece contains the separator. |
| `Strings.JoinSplit` | main.go:106 | Rejoining the pieces with the separator restores the payload exactly. |
| `Strings.SplitJoin` | main.go:106 | Pieces without a separator, joined and then split, come back unchanged. |
| `Payload.FirstInvalid` | main.go:121-141 | Finds the first piece, scanning in order, that does not convert. Every piece before it converts. |
| `Payload.ParseResult` | main.go:119-143 | Parsing succeeds iff all seven pieces convert. On success, field i of the record (in the order LoadAverage … NetworkLoadBytesPerSecond) is the value of piece i. On failure, the error names the first field whose piece does not convert, carries that piece, and every earlier piece converts. |
| `Payload.ParseMetrics` | main.go:119-143 | Filling the record field by field with an early return gives exactly `ParseResult`. |
| `Payload.MetricsResult` | main.go:85-117 | A transport failure and a read failure each give their own error. A payload whose comma count is not 6 fails with the actual piece count. Success needs a body with exactly 6 commas. A body with exactly 6 commas gives the result of parsing its seven pieces. |
| `Payload.GetMetrics` | main.go:85-117 | The split, the count check and parsing give exactly `MetricsResult`. |
| `Payload.RoundTrip` | main.go:106-142 | Any snapshot of 64-bit values, rendered as the server sends it, parses back to the same snapshot, field by field. |
| `Payload.TrailingNewlineRejected` | main.go:106-141 | A well-formed payload followed by a line break fails on `NetworkLoadBytesPerSecond`. |
| `Payload.EmptyFieldsRejected` | main.go:106-123 | `",,,,,,"` passes the count check and then fails on `LoadAverage` with an empty piece. |
| `Payload.LaterPiecesIgnored` | main.go:121-141 | Once a piece fails to convert, the pieces after it cannot change the outcome. |
| `Evaluator.Percentage` | main.go:145-148 | A zero total gives 0, whatever the usage. |
| `Evaluator.PercentageIsFloor` | main.go:149 | For a non-zero total, the percentage is `used * 100 / total` rounded down. This covers both signs of the total. |
| `Evaluator.FloorDivIsFloor` | main.go:149 | Floor division of the scaled usage lands on the greatest integer not above the exact quotient. |
| `Evaluator.PercentageBounds` | main.go:149 | When 0 ≤ used ≤ total and total > 0, the percentage lies in [0, 100] and equals integer division of `used * 100` by `total`. |
| `Evaluator.PercentageExample` | main.go:145-150 | 50 of 200 is 25 %. |
| `Evaluator.TruncDivTowardZero` | main.go:72 | Go's integer division rounds the free-disk figure toward zero, for negative differences too. |
| `Evaluator.Evaluate` | main.go:61-80 | The rules raise at most four alerts per snapshot. `EvaluateRules` states exactly which. |
| `Evaluator.FreeDiskMegabytesTruncates` | main.go:72 | `FreeDiskMegabytes`, the free-disk figure, is the free byte count divided by 1024*1024 and rounded toward zero, for both signs of the difference. |
| `Evaluator.EvaluateRules` | main.go:61-80 | The four rules fire in the order load, memory, disk, network, each at most once. The load alert fires iff the load is above 30; memory iff above 80 %; disk iff above 90 %; network iff above 90 %. The disk payload is the free space truncated to whole megabytes; the network payload is the free bandwidth in bytes per second. No other alert appears. |
| `Evaluator.ZeroTotalNeverAlerts` | main.go:146-148 | A zero RAM, disk or bandwidth total never raises the matching alert. |
| `Evaluator.AlertingDifferenceFits` | main.go:72 | A percentage above 90 implies that usage and total have the same sign, so `total - used` fits in 64 bits. |
| `Evaluator.DiskAndNetworkAlertsDoNotWrap` | main.go:70-80 | Whenever the disk or network alert fires, the 64-bit subtraction it performs cannot wrap around. |
| `Evaluator.AllRulesFire` | main.go:61-80 | A snapshot near capacity raises exactly load, memory, disk and network alerts, in that order, with the expected magnitudes. |
| `Evaluator.HalfUsageIsQuiet` | main.go:61-80 | A snapshot at half of every total raises nothing. |
| `Monitor.Step` | main.go:49-80 | Given what fetch-and-parse returned. Failed cycle: the counter goes up by one and the error is written first and once. No threshold alert is written. The "unavailable" line follows, once, iff the new count is at least 3. Successful cycle: the counter becomes 0 and the snapshot's alerts are written in order. |
| `Monitor.Probe.constructor` | main.go:36 | The probe starts with a zero counter and nothing written. |
| `Monitor.Probe.CheckMetrics` | main.go:48-83 | One cycle on a response sets the counter and appends the lines as `Step` says for that response's parse result. It returns the cycle's error exactly when the cycle failed. |
| `Monitor.Probe.Record` | main.go:50-82 | After `getMetrics` returns, the counter and the output change exactly as `Step` says. The error is returned iff there was one. |
| `Monitor.Probe.Emit` | main.go:62-79 | Writing one alert appends exactly that alert line to the output and changes nothing else. |
| `Monitor.Probe.ReportAlerts` | main.go:59-80 | Applying the rules one after another appends exactly the alerts of `Evaluate`. |
| `Monitor.CounterCountsConsecutiveFailures` | main.go:49-59 | Starting from zero, the counter after any sequence of cycles equals the number of consecutive failures at its end. |
| `Monitor.UnavailableIffThreeFailuresInARow` | main.go:52-55 | Cycle i writes the "unavailable" line iff it and at least the two cycles before it failed. The line re-fires on every further failure. |
| `Monitor.SuccessRestartsTheCount` | main.go:50-59 | After three failures and a success, the next two failures stay quiet, and the third writes the "unavailable" line again. |

## Left out

- HTTP fetch and body read (main.go:88-104): network I/O. The response is an input value.
  - The body is whatever the single buffered read of at most 1024 bytes returned.
  - A truncated body is not modelled.
- The 15-second ticker and the SIGINT/SIGTERM `select` loop (main.go:27-46): timer and signal plumbing, with no logic beyond calling `checkMetrics`. `FailuresAfter` stands in for a sequence of ticks.
- The commented-out Content-Type check (main.go:94-96): dead code.
- The exact wording of the printed lines (main.go:51-79). This includes the wrapping of errors with `%w`. Only the kind of line and its magnitude are kept. The memory line passes an `int` to `%.0f` (main.go:67), so the source prints `%!f(int=90)` where a reader might expect `90`; `MemoryTooHigh(p)` carries the number, not that text.
- The partial record `parseMetrics` leaves behind on failure: the caller discards it.
- The distinction `strconv.Atoi` draws between syntax errors and range errors. Which piece and which field failed is kept; the error kind is not.
- Evaluator.Percentage: uses exact integer arithmetic, the floor of `used * 100 / total`. The source computes `math.Floor(float64(used) / float64(total) * 100)` and converts the result back to `int` (main.go:149).
  - The two rounding steps of float64 can move the result one whole step either way. 29 of 100 gives 28 in float64, where the model gives 29.
  - For large operands this can also cross an alert threshold upward. 81000000000017 of 100000000000021 floors to 81 in float64 but 80 exactly, so the source raises the memory alert where the model stays quiet. 2730000000000010 of 3000000000000011 gives 91 against 90, which affects the disk and network rules in the same way.
  - Above 2^53, float64 also drops the low bits of each operand.
  - The model does not capture converting a float64 outside the 64-bit range back to `int`. Go leaves that result implementation-dependent. For example, with used = 2^57 and total = 1, amd64 yields the minimum `int` and no alert fires, while the model reports the exact value and fires.
- Evaluator.Evaluate: the network alert carries the free bandwidth in bytes per second. The source converts it to Mbit/s in float64 (main.go:78).
- Monitor.Step: the counter is unbounded. The source's 64-bit `int` would wrap only after 2^63 consecutive failures.
- The return value of `checkMetrics` is modelled, although `main` discards it.

=== FILE: evaluator.dfy ===
/**
 * The threshold rules applied to one snapshot: derived percentages and the
 * alerts they raise.
 */
module Evaluator {
  import opened Strconv
  import opened Payload

  const LoadLimit: int := 30
  const MemoryLimit: int := 80
  const DiskLimit: int := 90
  const NetworkLimit: int := 90
  const Megabyte: int := 1024 * 1024

  /** `a / b` rounded toward negative infinity, as `math.Floor` of the quotient. */
  function FloorDiv(a: int, b: int): int
    requires b != 0
  {
    if b > 0 then a / b else (-a) / (-b)
  }

  lemma FloorDivIsFloor(a: int, b: int)
    requires b != 0
    ensures b > 0 ==> FloorDiv(a, b) * b <= a < FloorDiv(a, b) * b + b
    ensures b < 0 ==> FloorDiv(a, b) * b + b < a <= FloorDiv(a, b) * b
  {
    if b < 0 {
      var q := (-a) / (-b);
      assert q * (-b) <= -a < q * (-b) + (-b);
      assert q * (-b) == -(q * b);
    }
  }

  /** `a / b` rounded toward zero, as Go's integer division does. */
  function TruncDiv(a: int, b: int): int
    requires b > 0
  {
    if a >= 0 then a / b else -((-a) / b)
  }

  lemma TruncDivTowardZero(a: int, b: int)
    requires b > 0
    ensures 0 <= a ==> 0 <= TruncDiv(a, b) * b <= a < TruncDiv(a, b) * b + b
    ensures a < 0 ==> TruncDiv(a, b) * b - b < a <= TruncDiv(a, b) * b <= 0
  {
    if a >= 0 {
      NonNegativeQuotient(a, b);
    } else {
      NonNegativeQuotient(-a, b);
      var q := (-a) / b;
      assert TruncDiv(a, b) * b == -(q * b);
    }
  }

  lemma NonNegativeQuotient(n: int, b: int)
    requires 0 <= n && 0 < b
    ensures 0 <= (n / b) * b <= n < (n / b) * b + b
  {
  }

  /**
   * `calculatePercentage`: the whole-number percentage `used` is of `total`,
   * rounded down; 0 when `total` is 0.
   */
  function Percentage(used: int, total: int): (p: int)
    ensures total == 0 ==> p == 0
  {
    if total == 0 then 0 else FloorDiv(used * 100, total)
  }

  /** The percentage is the exact quotient `used * 100 / total` rounded down. */
  lemma PercentageIsFloor(used: int, total: int)
    ensures total > 0 ==> Percentage(used, total) * total <= used * 100 < Percentage(used, total) * total + total
    ensures total < 0 ==> Percentage(used, total) * total + total < used * 100 <= Percentage(used, total) * total
  {
    if total != 0 {
      FloorDivIsFloor(used * 100, total);
    }
  }

  /** A usage within its total gives a percentage between 0 and 100. */
  lemma PercentageBounds(used: int, total: int)
    requires 0 < total && 0 <= used <= total
    ensures 0 <= Percentage(used, total) <= 100
    ensures Percentage(used, total) == (used * 100) / total
  {
    PercentageIsFloor(used, total);
    var p := Percentage(used, total);
    assert p * total > -total;
    assert p * total < 101 * total;
  }

  /** One alert, with the magnitude the rule reports. */
  datatype Alert =
    | LoadTooHigh(load: int)
    | MemoryTooHigh(percent: int)
    | DiskSpaceLow(freeMegabytes: int)
    | BandwidthLow(freeBytesPerSecond: int)

  /** Position of a rule in the evaluation order. */
  function Rank(a: Alert): nat {
    match a
    case LoadTooHigh(_) => 0
    case MemoryTooHigh(_) => 1
    case DiskSpaceLow(_) => 2
    case BandwidthLow(_) => 3
  }

  function MemoryPercent(m: Metrics): int {
    Percentage(m.ramUsageBytes, m.ramTotalBytes)
  }

  function DiskPercent(m: Metrics): int {
    Percentage(m.diskUsageBytes, m.diskTotalBytes)
  }

  function NetworkPercent(m: Metrics): int {
    Percentage(m.networkLoadBytesPerSecond, m.networkBandwidthBytesPerSecond)
  }

  /** Free disk space in whole megabytes, the fraction dropped toward zero. */
  function FreeDiskMegabytes(m: Metrics): int {
    TruncDiv(m.diskTotalBytes - m.diskUsageBytes, Megabyte)
  }

  /** The free-disk figure is the free byte count divided by 2^20, rounded toward zero. */
  lemma FreeDiskMegabytesTruncates(m: Metrics)
    ensures var free, mb := m.diskTotalBytes - m.diskUsageBytes, FreeDiskMegabytes(m);
      (0 <= free ==> 0 <= mb * 1048576 <= free < mb * 1048576 + 1048576) &&
      (free < 0 ==> mb * 1048576 - 1048576 < free <= mb * 1048576 <= 0)
  {
    TruncDivTowardZero(m.diskTotalBytes - m.diskUsageBytes, Megabyte);
  }

  function FreeBandwidth(m: Metrics): int {
    m.networkBandwidthBytesPerSecond - m.networkLoadBytesPerSecond
  }

  /** The alerts one snapshot raises, rule by rule in evaluation order; `EvaluateRules` states what they are. */
  function Evaluate(m: Metrics): (alerts: seq<Alert>)
    ensures |alerts| <= 4
  {
    Fire(m.loadAverage > LoadLimit, LoadTooHigh(m.loadAverage)) +
    Fire(MemoryPercent(m) > MemoryLimit, MemoryTooHigh(MemoryPercent(m))) +
    Fire(DiskPercent(m) > DiskLimit, DiskSpaceLow(FreeDiskMegabytes(m))) +
    Fire(NetworkPercent(m) > NetworkLimit, BandwidthLow(FreeBandwidth(m)))
  }

  /** The alert a rule contributes: `a` when its condition holds, nothing otherwise. */
  function Fire(condition: bool, a: Alert): seq<Alert> {
    if condition then [a] else []
  }

  /** Strictly increasing rank: rules in evaluation order, none twice. */
  predicate InRuleOrder(alerts: seq<Alert>) {
    forall i, j :: 0 <= i < j < |alerts| ==> Rank(alerts[i]) < Rank(alerts[j])
  }

  // FireKeepsOrder, FourRulesInOrder and FourRulesFire are not needed for
  // EvaluateRules to hold, but without them its proof runs out of resource
  // on some solver seeds.
  lemma FireKeepsOrder(alerts: seq<Alert>, condition: bool, a: Alert)
    requires InRuleOrder(alerts)
    requires forall i :: 0 <= i < |alerts| ==> Rank(alerts[i]) < Rank(a)
    ensures InRuleOrder(alerts + Fire(condition, a))
    ensures forall i :: 0 <= i < |alerts + Fire(condition, a)| ==> Rank((alerts + Fire(condition, a))[i]) <= Rank(a)
  {
  }

  /** The four rules, whatever their conditions, contribute their alerts in rule order. */
  lemma FourRulesInOrder(c1: bool, c2: bool, c3: bool, c4: bool, x1: Alert, x2: Alert, x3: Alert, x4: Alert)
    requires x1.LoadTooHigh? && x2.MemoryTooHigh? && x3.DiskSpaceLow? && x4.BandwidthLow?
    ensures InRuleOrder(Fire(c1, x1) + Fire(c2, x2) + Fire(c3, x3) + Fire(c4, x4))
  {
    var a1 := Fire(c1, x1);
    FireKeepsOrder([], c1, x1);
    assert a1 == [] + a1;
    FireKeepsOrder(a1, c2, x2);
    FireKeepsOrder(a1 + Fire(c2, x2), c3, x3);
    FireKeepsOrder(a1 + Fire(c2, x2) + Fire(c3, x3), c4, x4);
  }

  /** The four rules contribute exactly the alerts whose conditions hold. */
  lemma FourRulesFire(c1: bool, c2: bool, c3: bool, c4: bool, x1: Alert, x2: Alert, x3: Alert, x4: Alert)
    ensures forall a :: a in Fire(c1, x1) + Fire(c2, x2) + Fire(c3, x3) + Fire(c4, x4) <==>
      (c1 && a == x1) || (c2 && a == x2) || (c3 && a == x3) || (c4 && a == x4)
  {
    var a1 := Fire(c1, x1);
    var a2 := a1 + Fire(c2, x2);
    var a3 := a2 + Fire(c3, x3);
    var a4 := a3 + Fire(c4, x4);
    forall a
      ensures a in a4 <==> (c1 && a == x1) || (c2 && a == x2) || (c3 && a == x3) || (c4 && a == x4)
    {
      assert a in a2 <==> a in a1 || a in Fire(c2, x2);
      assert a in a3 <==> a in a2 || a in Fire(c3, x3);
      assert a in a4 <==> a in a3 || a in Fire(c4, x4);
    }
  }

  /**
   * Each rule fires at most once, in the order load, memory, disk, network,
   * exactly when its limit is exceeded, with the magnitude the source reports;
   * no other alert appears.
   */
  lemma EvaluateRules(m: Metrics)
    ensures InRuleOrder(Evaluate(m))
    ensures LoadTooHigh(m.loadAverage) in Evaluate(m) <==> m.loadAverage > LoadLimit
    ensures MemoryTooHigh(MemoryPercent(m)) in Evaluate(m) <==> MemoryPercent(m) > MemoryLimit
    ensures DiskSpaceLow(FreeDiskMegabytes(m)) in Evaluate(m) <==> DiskPercent(m) > DiskLimit
    ensures BandwidthLow(FreeBandwidth(m)) in Evaluate(m) <==> NetworkPercent(m) > NetworkLimit
    ensures forall a :: a in Evaluate(m) ==>
      a == LoadTooHigh(m.loadAverage) || a == MemoryTooHigh(MemoryPercent(m)) ||
      a == DiskSpaceLow(FreeDiskMegabytes(m)) || a == BandwidthLow(FreeBandwidth(m))
  {
    var c1, c2, c3, c4 := m.loadAverage > LoadLimit, MemoryPercent(m) > MemoryLimit,
      DiskPercent(m) > DiskLimit, NetworkPercent(m) > NetworkLimit;
    var x1, x2, x3, x4 := LoadTooHigh(m.loadAverage), MemoryTooHigh(MemoryPercent(m)),
      DiskSpaceLow(FreeDiskMegabytes(m)), BandwidthLow(FreeBandwidth(m));
    assert Evaluate(m) == Fire(c1, x1) + Fire(c2, x2) + Fire(c3, x3) + Fire(c4, x4);
    FourRulesInOrder(c1, c2, c3, c4, x1, x2, x3, x4);
    FourRulesFire(c1, c2, c3, c4, x1, x2, x3, x4);
  }

  /** A zero total never raises the alert that divides by it. */
  lemma ZeroTotalNeverAlerts(m: Metrics)
    ensures m.ramTotalBytes == 0 ==> forall a :: a in Evaluate(m) ==> !a.MemoryTooHigh?
    ensures m.diskTotalBytes == 0 ==> forall a :: a in Evaluate(m) ==> !a.DiskSpaceLow?
    ensures m.networkBandwidthBytesPerSecond == 0 ==> forall a :: a in Evaluate(m) ==> !a.BandwidthLow?
  {
    EvaluateRules(m);
  }

  /**
   * A percentage above 90 needs usage and total of the same sign, so the
   * 64-bit subtraction the disk and network alerts perform cannot wrap.
   */
  lemma {:induction false} AlertingDifferenceFits(used: int, total: int)
    requires InIntRange(used) && InIntRange(total)
    requires Percentage(used, total) > 90
    ensures InIntRange(total - used)
  {
    var p := Percentage(used, total);
    PercentageIsFloor(used, total);
    if total > 0 {
      assert p * total >= 91 * total by {
        assert (p - 91) * total >= 0;
      }
      assert used > 0;
    } else {
      assert p * total <= 91 * total by {
        assert (p - 91) * total <= 0;
      }
      assert used < 0;
    }
  }

  lemma DiskAndNetworkAlertsDoNotWrap(m: Metrics)
    requires InRange(m)
    ensures DiskSpaceLow(FreeDiskMegabytes(m)) in Evaluate(m) ==> InIntRange(m.diskTotalBytes - m.diskUsageBytes)
    ensures BandwidthLow(FreeBandwidth(m)) in Evaluate(m) ==> InIntRange(FreeBandwidth(m))
  {
    assert Values(m)[3] == m.diskTotalBytes && Values(m)[4] == m.diskUsageBytes;
    assert Values(m)[5] == m.networkBandwidthBytesPerSecond && Values(m)[6] == m.networkLoadBytesPerSecond;
    EvaluateRules(m);
    if DiskPercent(m) > DiskLimit {
      AlertingDifferenceFits(m.diskUsageBytes, m.diskTotalBytes);
    }
    if NetworkPercent(m) > NetworkLimit {
      AlertingDifferenceFits(m.networkLoadBytesPerSecond, m.networkBandwidthBytesPerSecond);
    }
  }

  /** A snapshot near capacity on every resource raises all four alerts in order. */
  lemma AllRulesFire()
    ensures Evaluate(Metrics(35, 1000, 900, 1000000, 950000, 1000000, 950000))
      == [LoadTooHigh(35), MemoryTooHigh(90), DiskSpaceLow(0), BandwidthLow(50000)]
  {
    assert Percentage(900, 1000) == 90;
    assert Percentage(950000, 1000000) == 95;
  }

  /** A snapshot at half of every total raises nothing. */
  lemma HalfUsageIsQuiet()
    ensures Evaluate(Metrics(15, 1000, 500, 1000000, 500000, 1000000, 500000)) == []
  {
    assert Percentage(500, 1000) == 50;
    assert Percentage(500000, 1000000) == 50;
  }

  lemma PercentageExample()
    ensures Percentage(50, 200) == 25
  {
  }
}

=== FILE: metrics.dfy ===
/**
 * Decoding the probe's payload: seven comma-separated decimal integers,
 * converted field by field into a `Metrics` record.
 */
module Payload {
  import opened Wrappers
  import opened Strconv
  import opened Strings

  /** One snapshot of the target host's resource statistics. */
  datatype Metrics = Metrics(
    loadAverage: int,
    ramTotalBytes: int,
    ramUsageBytes: int,
    diskTotalBytes: int,
    diskUsageBytes: int,
    networkBandwidthBytesPerSecond: int,
    networkLoadBytesPerSecond: int)

  /** The names the parser reports when a field does not convert. */
  datatype Field =
    | LoadAverage
    | RAMTotalBytes
    | RAMUsageBytes
    | DiskTotalBytes
    | DiskUsageBytes
    | NetworkBandwidthBytesPerSecond
    | NetworkLoadBytesPerSecond

  /** The order in which the payload carries the fields. */
  const FieldOrder: seq<Field> := [
    LoadAverage, RAMTotalBytes, RAMUsageBytes, DiskTotalBytes,
    DiskUsageBytes, NetworkBandwidthBytesPerSecond, NetworkLoadBytesPerSecond]

  const FieldCount: nat := 7

  const Separator: char := ','

  function Get(m: Metrics, f: Field): int {
    match f
    case LoadAverage => m.loadAverage
    case RAMTotalBytes => m.ramTotalBytes
    case RAMUsageBytes => m.ramUsageBytes
    case DiskTotalBytes => m.diskTotalBytes
    case DiskUsageBytes => m.diskUsageBytes
    case NetworkBandwidthBytesPerSecond => m.networkBandwidthBytesPerSecond
    case NetworkLoadBytesPerSecond => m.networkLoadBytesPerSecond
  }

  function Position(f: Field): (i: nat)
    ensures i < FieldCount && FieldOrder[i] == f
  {
    match f
    case LoadAverage => 0
    case RAMTotalBytes => 1
    case RAMUsageBytes => 2
    case DiskTotalBytes => 3
    case DiskUsageBytes => 4
    case NetworkBandwidthBytesPerSecond => 5
    case NetworkLoadBytesPerSecond => 6
  }

  /** What a fetch hands to the parser: the body's bytes, or why there are none. */
  datatype Response =
    | TransportError
    | ReadError
    | Body(payload: string)

  /** Why a cycle produced no snapshot. */
  datatype MetricsError =
    | FetchFailed
    | ReadFailed
    | WrongCount(got: nat)
    | InvalidNumber(field: Field, piece: string)

  /** Index of the first piece at or after `from` that `Atoi` rejects, or `|values|` if none. */
  function FirstInvalid(values: seq<string>, from: nat): (k: nat)
    requires from <= |values|
    ensures from <= k <= |values|
    ensures k < |values| ==> Atoi(values[k]).None?
    ensures forall j :: from <= j < k ==> Atoi(values[j]).Some?
    decreases |values| - from
  {
    if from == |values| || Atoi(values[from]).None? then from
    else FirstInvalid(values, from + 1)
  }

  /**
   * The outcome of converting seven pieces: every field converted in payload
   * order, or the name of the first field whose piece does not convert.
   */
  function ParseResult(values: seq<string>): (r: Result<Metrics, MetricsError>)
    requires |values| == FieldCount
    ensures r.Success? <==> forall i :: 0 <= i < FieldCount ==> Atoi(values[i]).Some?
    ensures r.Success? ==> forall i :: 0 <= i < FieldCount ==> Get(r.value, FieldOrder[i]) == Atoi(values[i]).value
    ensures r.Failure? ==> r.error.InvalidNumber?
    ensures r.Failure? ==>
      var k := Position(r.error.field);
      r.error.piece == values[k] && Atoi(values[k]).None? &&
      forall j :: 0 <= j < k ==> Atoi(values[j]).Some?
  {
    var k := FirstInvalid(values, 0);
    if k < FieldCount then
      assert Position(FieldOrder[k]) == k;
      Failure(InvalidNumber(FieldOrder[k], values[k]))
    else
      Success(FromValues(seq(FieldCount, i requires 0 <= i < FieldCount => Atoi(values[i]).value)))
  }

  /** The record whose fields, in payload order, are `vs`. */
  function FromValues(vs: seq<int>): (m: Metrics)
    requires |vs| == FieldCount
    ensures Values(m) == vs
  {
    Metrics(vs[0], vs[1], vs[2], vs[3], vs[4], vs[5], vs[6])
  }

  /**
   * `parseMetrics`: fills the record one field at a time and returns at the
   * first piece that does not convert.
   */
  method ParseMetrics(values: seq<string>) returns (r: Result<Metrics, MetricsError>)
    requires |values| == FieldCount
    ensures r == ParseResult(values)
  {
    var m := Metrics(0, 0, 0, 0, 0, 0, 0);
    var v := Atoi(values[0]);
    if v.None? { return Failure(InvalidNumber(LoadAverage, values[0])); }
    m := m.(loadAverage := v.value);
    v := Atoi(values[1]);
    if v.None? { return Failure(InvalidNumber(RAMTotalBytes, values[1])); }
    m := m.(ramTotalBytes := v.value);
    v := Atoi(values[2]);
    if v.None? { return Failure(InvalidNumber(RAMUsageBytes, values[2])); }
    m := m.(ramUsageBytes := v.value);
    v := Atoi(values[3]);
    if v.None? { return Failure(InvalidNumber(DiskTotalBytes, values[3])); }
    m := m.(diskTotalBytes := v.value);
    v := Atoi(values[4]);
    if v.None? { return Failure(InvalidNumber(DiskUsageBytes, values[4])); }
    m := m.(diskUsageBytes := v.value);
    v := Atoi(values[5]);
    if v.None? { return Failure(InvalidNumber(NetworkBandwidthBytesPerSecond, values[5])); }
    m := m.(networkBandwidthBytesPerSecond := v.value);
    v := Atoi(values[6]);
    if v.None? { return Failure(InvalidNumber(NetworkLoadBytesPerSecond, values[6])); }
    m := m.(networkLoadBytesPerSecond := v.value);
    return Success(m);
  }

  /**
   * The snapshot a response yields: a failed fetch or read, a payload that
   * does not split into exactly seven pieces, or the result of converting them.
   */
  function MetricsResult(response: Response): (r: Result<Metrics, MetricsError>)
    ensures response.TransportError? ==> r == Failure(FetchFailed)
    ensures response.ReadError? ==> r == Failure(ReadFailed)
    ensures response.Body? && Count(response.payload, Separator) != FieldCount - 1 ==>
      r == Failure(WrongCount(Count(response.payload, Separator) + 1))
    ensures r.Success? ==> response.Body? && Count(response.payload, Separator) == FieldCount - 1
    ensures response.Body? && Count(response.payload, Separator) == FieldCount - 1 ==>
      r == ParseResult(Split(response.payload, Separator))
  {
    match response
    case TransportError => Failure(FetchFailed)
    case ReadError => Failure(ReadFailed)
    case Body(payload) =>
      var values := Split(payload, Separator);
      if |values| != FieldCount then Failure(WrongCount(|values|))
      else ParseResult(values)
  }

  /** `getMetrics` once the body has been read: split, count, convert. */
  method GetMetrics(response: Response) returns (r: Result<Metrics, MetricsError>)
    ensures r == MetricsResult(response)
  {
    match response {
      case TransportError => return Failure(FetchFailed);
      case ReadError => return Failure(ReadFailed);
      case Body(payload) =>
        var values := Split(payload, Separator);
        if |values| != FieldCount {
          return Failure(WrongCount(|values|));
        }
        r := ParseMetrics(values);
    }
  }

  /** The fields in payload order. */
  function Values(m: Metrics): (vs: seq<int>)
    ensures |vs| == FieldCount && forall i :: 0 <= i < FieldCount ==> vs[i] == Get(m, FieldOrder[i])
  {
    [m.loadAverage, m.ramTotalBytes, m.ramUsageBytes, m.diskTotalBytes,
     m.diskUsageBytes, m.networkBandwidthBytesPerSecond, m.networkLoadBytesPerSecond]
  }

  /** The pieces a well-behaved server sends for `m`. */
  function Pieces(m: Metrics): (ps: seq<string>)
    ensures |ps| == FieldCount && forall i :: 0 <= i < FieldCount ==> ps[i] == Itoa(Values(m)[i])
  {
    var vs := Values(m);
    seq(FieldCount, i requires 0 <= i < FieldCount => Itoa(vs[i]))
  }

  /** The payload a well-behaved server sends for `m`. */
  function Render(m: Metrics): string {
    Join(Pieces(m), Separator)
  }

  predicate InRange(m: Metrics) {
    forall i :: 0 <= i < FieldCount ==> InIntRange(Values(m)[i])
  }

  lemma PiecesHaveNoSeparator(m: Metrics)
    ensures forall i :: 0 <= i < FieldCount ==> Separator !in Pieces(m)[i]
  {
    forall i | 0 <= i < FieldCount ensures Separator !in Pieces(m)[i] {
      ItoaHasNoSeparator(Values(m)[i], Separator);
    }
  }

  /** Any snapshot of 64-bit values is reconstructed exactly, field by field, from its payload. */
  lemma RoundTrip(m: Metrics)
    requires InRange(m)
    ensures MetricsResult(Body(Render(m))) == Success(m)
  {
    PiecesHaveNoSeparator(m);
    SplitJoin(Pieces(m), Separator);
    forall i | 0 <= i < FieldCount ensures Atoi(Pieces(m)[i]) == Some(Values(m)[i]) {
      AtoiItoa(Values(m)[i]);
    }
    var r := MetricsResult(Body(Render(m)));
    assert r.Success?;
    assert Values(r.value) == Values(m);
  }

  /** A line break after the last field makes the payload fail on the last field. */
  lemma TrailingNewlineRejected(m: Metrics)
    requires InRange(m)
    ensures MetricsResult(Body(Render(m) + "\n"))
      == Failure(InvalidNumber(NetworkLoadBytesPerSecond, Itoa(m.networkLoadBytesPerSecond) + "\n"))
  {
    var ps := Pieces(m);
    var qs := ps[..FieldCount - 1] + [ps[FieldCount - 1] + "\n"];
    SplitWithNewline(m, qs);
    forall i | 0 <= i < FieldCount - 1 ensures Atoi(qs[i]).Some? {
      assert qs[i] == ps[i];
      AtoiItoa(Values(m)[i]);
    }
    AtoiRejectsTrailingNewline(ps[FieldCount - 1]);
    FailsOnLastField(qs);
  }

  lemma SplitWithNewline(m: Metrics, qs: seq<string>)
    requires qs == Pieces(m)[..FieldCount - 1] + [Pieces(m)[FieldCount - 1] + "\n"]
    ensures Split(Render(m) + "\n", Separator) == qs
  {
    var ps := Pieces(m);
    JoinAppend(ps, "\n", Separator);
    PiecesHaveNoSeparator(m);
    assert Separator !in ps[FieldCount - 1] + "\n";
    assert forall i :: 0 <= i < FieldCount ==> Separator !in qs[i];
    SplitJoin(qs, Separator);
  }

  lemma FailsOnLastField(values: seq<string>)
    requires |values| == FieldCount
    requires forall i :: 0 <= i < FieldCount - 1 ==> Atoi(values[i]).Some?
    requires Atoi(values[FieldCount - 1]).None?
    ensures ParseResult(values) == Failure(InvalidNumber(NetworkLoadBytesPerSecond, values[FieldCount - 1]))
  {
    assert FirstInvalid(values, 0) == FieldCount - 1;
  }

  /** Seven empty pieces fail on the first field, with the empty piece named. */
  lemma EmptyFieldsRejected()
    ensures MetricsResult(Body(",,,,,,")) == Failure(InvalidNumber(LoadAverage, ""))
  {
    var empty: seq<string> := ["", "", "", "", "", "", ""];
    assert Join(empty[6..], Separator) == "";
    assert Join(empty[5..], Separator) == ",";
    assert Join(empty[4..], Separator) == ",,";
    assert Join(empty[3..], Separator) == ",,,";
    assert Join(empty[2..], Separator) == ",,,,";
    assert Join(empty[1..], Separator) == ",,,,,";
    assert Join(empty, Separator) == ",,,,,,";
    SplitJoin(empty, Separator);
    assert Atoi(empty[0]).None?;
    assert FirstInvalid(empty, 0) == 0;
  }

  /** Once a piece fails to convert, nothing after it influences the outcome. */
  lemma LaterPiecesIgnored(values: seq<string>, other: seq<string>, k: nat)
    requires |values| == |other| == FieldCount
    requires k < FieldCount && values[..k + 1] == other[..k + 1]
    requires Atoi(values[k]).None?
    ensures ParseResult(values) == ParseResult(other)
  {
    assert forall j :: 0 <= j <= k ==> values[j] == other[j] by {
      forall j | 0 <= j <= k ensures values[j] == other[j] {
        assert values[j] == values[..k + 1][j];
      }
    }
    FirstInvalidAgrees(values, other, k, 0);
  }

  lemma {:induction false} FirstInvalidAgrees(values: seq<string>, other: seq<string>, k: nat, from: nat)
    requires |values| == |other| && k < |values| && from <= k
    requires forall j :: from <= j <= k ==> values[j] == other[j]
    requires Atoi(values[k]).None?
    ensures FirstInvalid(values, from) == FirstInvalid(other, from) <= k
    decreases k - from
  {
    if from < k && Atoi(values[from]).Some? {
      FirstInvalidAgrees(values, other, k, from + 1);
    }
  }
}

=== FILE: monitor.dfy ===
/**
 * One poll cycle of the probe and the consecutive-failure counter it keeps
 * across cycles.
 */
module Monitor {
  import opened Wrappers
  import opened Payload
  import opened Evaluator

  /** Consecutive failures after which every further failure reports the host unavailable. */
  const UnavailableAfter: nat := 3

  /** One line the probe writes to its output. */
  datatype Event =
    | Reported(error: MetricsError)
    | Unavailable
    | Alerted(alert: Alert)

  function AlertEvents(alerts: seq<Alert>): (events: seq<Event>)
    ensures |events| == |alerts|
    ensures forall i :: 0 <= i < |alerts| ==> events[i] == Alerted(alerts[i])
  {
    seq(|alerts|, i requires 0 <= i < |alerts| => Alerted(alerts[i]))
  }

  /** What one fetch-and-parse yields: a snapshot, or the reason there is none. */
  type Fetched = Result<Metrics, MetricsError>

  /** The counter and the lines after one cycle. */
  datatype Outcome = Outcome(failures: nat, events: seq<Event>)

  /**
   * One cycle: a failure bumps the counter, reports the error and, from the
   * third consecutive failure on, the unavailability of the host; a success
   * clears the counter and reports the snapshot's alerts.
   */
  function Step(failures: nat, fetched: Fetched): (o: Outcome)
    ensures o.failures == 0 <==> fetched.Success?
    ensures fetched.Failure? ==> o.failures == failures + 1
    ensures fetched.Failure? ==> |o.events| == (if o.failures >= UnavailableAfter then 2 else 1)
    ensures fetched.Failure? ==> o.events[0] == Reported(fetched.error)
    ensures fetched.Failure? ==> forall e :: e in o.events ==> !e.Alerted?
    ensures Unavailable in o.events <==> fetched.Failure? && o.failures >= UnavailableAfter
    ensures fetched.Success? ==> o.events == AlertEvents(Evaluate(fetched.value))
  {
    match fetched
    case Failure(e) =>
      var n := failures + 1;
      Outcome(n, [Reported(e)] + (if n >= UnavailableAfter then [Unavailable] else []))
    case Success(m) =>
      var events := AlertEvents(Evaluate(m));
      assert forall e :: e in events ==> e.Alerted?;
      Outcome(0, events)
  }

  /** The probe's state: the failure counter and everything written so far. */
  class Probe {
    var failures: nat
    var output: seq<Event>

    constructor ()
      ensures failures == 0 && output == []
    {
      failures := 0;
      output := [];
    }

    /** `checkMetrics`: one fetch-parse-evaluate cycle. */
    method CheckMetrics(response: Response) returns (err: Option<MetricsError>)
      modifies this
      ensures failures == Step(old(failures), MetricsResult(response)).failures
      ensures output == old(output) + Step(old(failures), MetricsResult(response)).events
      ensures err.Some? <==> MetricsResult(response).Failure?
      ensures err.Some? ==> err.value == MetricsResult(response).error
    {
      var r := GetMetrics(response);
      err := Record(r);
    }

    /** What `checkMetrics` does once `getMetrics` has returned. */
    method Record(fetched: Fetched) returns (err: Option<MetricsError>)
      modifies this
      ensures failures == Step(old(failures), fetched).failures
      ensures output == old(output) + Step(old(failures), fetched).events
      ensures err == if fetched.Failure? then Some(fetched.error) else None
    {
      if fetched.Failure? {
        output := output + [Reported(fetched.error)];
        failures := failures + 1;
        if failures >= UnavailableAfter {
          output := output + [Unavailable];
        }
        return Some(fetched.error);
      }

      failures := 0;
      ReportAlerts(fetched.value);
      return None;
    }

    /** The threshold rules of `checkMetrics`, applied in order to a fresh snapshot. */
    method ReportAlerts(m: Metrics)
      modifies this`output
      ensures output == old(output) + AlertEvents(Evaluate(m))
    {
      ghost var before := output;
      ghost var fired: seq<Alert> := [];
      ghost var written := output;

      if m.loadAverage > LoadLimit {
        Emit(LoadTooHigh(m.loadAverage));
      }
      Fired(before, written, output, fired, m.loadAverage > LoadLimit, LoadTooHigh(m.loadAverage));
      fired, written := fired + Fire(m.loadAverage > LoadLimit, LoadTooHigh(m.loadAverage)), output;

      var ramUsagePercentage := Percentage(m.ramUsageBytes, m.ramTotalBytes);
      if ramUsagePercentage > MemoryLimit {
        Emit(MemoryTooHigh(ramUsagePercentage));
      }
      Fired(before, written, output, fired, ramUsagePercentage > MemoryLimit, MemoryTooHigh(ramUsagePercentage));
      fired, written := fired + Fire(ramUsagePercentage > MemoryLimit, MemoryTooHigh(ramUsagePercentage)), output;

      var diskUsagePercentage := Percentage(m.diskUsageBytes, m.diskTotalBytes);
      if diskUsagePercentage > DiskLimit {
        var leftDiskMegabytes := TruncDiv(m.diskTotalBytes - m.diskUsageBytes, Megabyte);
        assert leftDiskMegabytes == FreeDiskMegabytes(m);
        Emit(DiskSpaceLow(leftDiskMegabytes));
      }
      Fired(before, written, output, fired, diskUsagePercentage > DiskLimit, DiskSpaceLow(FreeDiskMegabytes(m)));
      fired, written := fired + Fire(diskUsagePercentage > DiskLimit, DiskSpaceLow(FreeDiskMegabytes(m))), output;

      var networkUsagePercentage := Percentage(m.networkLoadBytesPerSecond, m.networkBandwidthBytesPerSecond);
      if networkUsagePercentage > NetworkLimit {
        var leftBandwidth := m.networkBandwidthBytesPerSecond - m.networkLoadBytesPerSecond;
        assert leftBandwidth == FreeBandwidth(m);
        Emit(BandwidthLow(leftBandwidth));
      }
      Fired(before, written, output, fired, networkUsagePercentage > NetworkLimit, BandwidthLow(FreeBandwidth(m)));
      fired := fired + Fire(networkUsagePercentage > NetworkLimit, BandwidthLow(FreeBandwidth(m)));

      assert fired == Evaluate(m);
    }

    /** Writes one alert line. */
    method Emit(a: Alert)
      modifies this`output
      ensures output == old(output) + [Alerted(a)]
    {
      output := output + [Alerted(a)];
    }
  }

  /** Bookkeeping for one rule: the lines written so far are the alerts fired so far. */
  lemma Fired(before: seq<Event>, written: seq<Event>, output: seq<Event>, fired: seq<Alert>, condition: bool, a: Alert)
    requires written == before + AlertEvents(fired)
    requires output == if condition then written + [Alerted(a)] else written
    ensures output == before + AlertEvents(fired + Fire(condition, a))
  {
    assert AlertEvents(fired + Fire(condition, a)) == AlertEvents(fired) + AlertEvents(Fire(condition, a));
  }

  /** The counter after a sequence of cycles starting from `failures`. */
  function FailuresAfter(failures: nat, cycles: seq<Fetched>): nat
    decreases |cycles|
  {
    if cycles == [] then failures
    else Step(FailuresAfter(failures, cycles[..|cycles| - 1]), cycles[|cycles| - 1]).failures
  }

  /** The length of the run of failed cycles that ends the sequence. */
  function TrailingFailures(cycles: seq<Fetched>): (n: nat)
    ensures n <= |cycles|
    decreases |cycles|
  {
    if cycles == [] then 0
    else if cycles[|cycles| - 1].Failure? then TrailingFailures(cycles[..|cycles| - 1]) + 1
    else 0
  }

  /** Started at zero, the counter always equals the number of consecutive failures just seen. */
  lemma {:induction false} CounterCountsConsecutiveFailures(cycles: seq<Fetched>)
    ensures FailuresAfter(0, cycles) == TrailingFailures(cycles)
    decreases |cycles|
  {
    if cycles != [] {
      CounterCountsConsecutiveFailures(cycles[..|cycles| - 1]);
    }
  }

  /**
   * The unavailability line is written in cycle `i` exactly when that cycle
   * and at least the two before it failed, however long the run already is.
   */
  lemma UnavailableIffThreeFailuresInARow(cycles: seq<Fetched>, i: nat)
    requires i < |cycles|
    ensures Unavailable in Step(FailuresAfter(0, cycles[..i]), cycles[i]).events
      <==> TrailingFailures(cycles[..i + 1]) >= UnavailableAfter
  {
    var upTo := cycles[..i + 1];
    assert upTo[..i] == cycles[..i] && upTo[i] == cycles[i];
    CounterCountsConsecutiveFailures(cycles[..i]);
  }

  /**
   * Three failures, a success, then failures again: the success clears the
   * counter, so the next unavailability line waits for three new failures.
   */
  lemma SuccessRestartsTheCount(m: Metrics, e: MetricsError)
    ensures var cycles := [Failure(e), Failure(e), Failure(e), Success(m), Failure(e), Failure(e), Failure(e)];
      FailuresAfter(0, cycles[..4]) == 0 &&
      Unavailable !in Step(FailuresAfter(0, cycles[..4]), cycles[4]).events &&
      Unavailable !in Step(FailuresAfter(0, cycles[..5]), cycles[5]).events &&
      Unavailable in Step(FailuresAfter(0, cycles[..6]), cycles[6]).events
  {
    var cycles: seq<Fetched> := [Failure(e), Failure(e), Failure(e), Success(m), Failure(e), Failure(e), Failure(e)];
    CounterCountsConsecutiveFailures(cycles[..4]);
    assert cycles[..5][..4] == cycles[..4];
    assert cycles[..6][..5] == cycles[..5];
    assert cycles[..7][..6] == cycles[..6];
    UnavailableIffThreeFailuresInARow(cycles, 4);
    UnavailableIffThreeFailuresInARow(cycles, 5);
    UnavailableIffThreeFailuresInARow(cycles, 6);
  }
}

=== FILE: strconv.dfy ===
/**
 * Decimal integer conversion as performed by Go's `strconv.Atoi` on a
 * 64-bit platform, together with its inverse (decimal rendering), which
 * serves as the reference the conversion is checked against.
 */
module Strconv {
  import opened Wrappers

  /** Bounds of Go's `int` on a 64-bit platform. */
  const MinInt: int := -0x8000_0000_0000_0000
  const MaxInt: int := 0x7FFF_FFFF_FFFF_FFFF

  predicate InIntRange(v: int) {
    MinInt <= v <= MaxInt
  }

  predicate IsDigit(c: char) {
    '0' <= c <= '9'
  }

  predicate AllDigits(s: string) {
    forall i :: 0 <= i < |s| ==> IsDigit(s[i])
  }

  predicate IsSign(c: char) {
    c == '+' || c == '-'
  }

  /** The value of a non-empty or empty run of decimal digits, most significant first. */
  function DigitsValue(s: string): nat
    requires AllDigits(s)
  {
    if s == [] then 0 else DigitsValue(s[..|s| - 1]) * 10 + (s[|s| - 1] as int - '0' as int)
  }

  /**
   * `strconv.Atoi`: an optional `+` or `-`, then one or more decimal digits
   * and nothing else (no blanks, no underscores, no trailing newline); the
   * value must fit in a 64-bit `int`, otherwise the call reports a range error.
   */
  function Atoi(s: string): (r: Option<int>)
    ensures r.Some? ==> InIntRange(r.value)
    ensures r.Some? ==> |s| > 0 && forall i :: 0 <= i < |s| ==> IsDigit(s[i]) || (i == 0 && IsSign(s[i]))
    ensures r.Some? ==> (r.value < 0 ==> s[0] == '-')
    ensures r.Some? ==> (IsSign(s[0]) ==> |s| > 1)
  {
    var digits := if |s| > 0 && IsSign(s[0]) then s[1..] else s;
    if |digits| == 0 || !AllDigits(digits) then None
    else
      var v: int := if s[0] == '-' then -(DigitsValue(digits) as int) else DigitsValue(digits);
      if InIntRange(v) then Some(v) else None
  }

  /**
   * Conversely, every well-formed piece whose value fits in 64 bits converts,
   * to the value its sign and digits denote; leading zeros and a `+` are accepted.
   */
  lemma AtoiAccepts(sign: string, digits: string)
    requires sign == "" || sign == "+" || sign == "-"
    requires |digits| > 0 && AllDigits(digits)
    requires InIntRange(if sign == "-" then -(DigitsValue(digits) as int) else DigitsValue(digits))
    ensures Atoi(sign + digits) == Some(if sign == "-" then -(DigitsValue(digits) as int) else DigitsValue(digits))
  {
    var s := sign + digits;
    if sign == "" {
      assert s == digits;
      assert IsDigit(s[0]) && !IsSign(s[0]);
    } else {
      assert s[0] == sign[0] && IsSign(s[0]);
      assert s[1..] == digits;
    }
  }

  /** A well-formed piece whose value does not fit in 64 bits never converts. */
  lemma AtoiRejectsOutOfRange(sign: string, digits: string)
    requires sign == "" || sign == "+" || sign == "-"
    requires |digits| > 0 && AllDigits(digits)
    requires !InIntRange(if sign == "-" then -(DigitsValue(digits) as int) else DigitsValue(digits))
    ensures Atoi(sign + digits).None?
  {
    var s := sign + digits;
    if sign == "" {
      assert s == digits;
      assert IsDigit(s[0]) && !IsSign(s[0]);
    } else {
      assert s[0] == sign[0] && IsSign(s[0]);
      assert s[1..] == digits;
    }
  }

  /** `"+5"`, `"007"` and `"-0"` all convert. */
  lemma AtoiExamples()
    ensures Atoi("+5") == Some(5) && Atoi("007") == Some(7) && Atoi("-0") == Some(0)
  {
    AtoiAccepts("+", "5");
    AtoiAccepts("", "007");
    AtoiAccepts("-", "0");
    assert "+" + "5" == "+5" && "" + "007" == "007" && "-" + "0" == "-0";
  }

  function DigitChar(d: nat): char
    requires d < 10
  {
    ('0' as int + d) as char
  }

  /** Decimal rendering of a natural number, without leading zeros. */
  function NatDigits(n: nat): string
    decreases n
  {
    if n < 10 then [DigitChar(n)] else NatDigits(n / 10) + [DigitChar(n % 10)]
  }

  /** Decimal rendering of an integer, as `strconv.Itoa` produces it. */
  function Itoa(n: int): string {
    if n < 0 then "-" + NatDigits(-n) else NatDigits(n)
  }

  lemma {:induction false} NatDigitsValue(n: nat)
    ensures |NatDigits(n)| > 0 && AllDigits(NatDigits(n))
    ensures DigitsValue(NatDigits(n)) == n
    decreases n
  {
    if n >= 10 {
      NatDigitsValue(n / 10);
      var s := NatDigits(n);
      assert s[..|s| - 1] == NatDigits(n / 10);
    }
  }

  /** Every 64-bit integer survives rendering followed by `Atoi`. */
  lemma AtoiItoa(n: int)
    requires InIntRange(n)
    ensures Atoi(Itoa(n)) == Some(n)
  {
    var m := if n < 0 then -n else n;
    NatDigitsValue(m);
    var s := Itoa(n);
    if n < 0 {
      assert s[1..] == NatDigits(m);
    } else {
      assert !IsSign(s[0]);
    }
  }

  /** A rendered integer never contains the payload's field separator or a line break. */
  lemma ItoaHasNoSeparator(n: int, c: char)
    requires !IsDigit(c) && c != '-'
    ensures c !in Itoa(n)
  {
    var m := if n < 0 then -n else n;
    NatDigitsValue(m);
  }

  /** A piece ending in a line break never converts. */
  lemma AtoiRejectsTrailingNewline(s: string)
    ensures Atoi(s + "\n").None?
  {
    var t := s + "\n";
    assert t[|t| - 1] == '\n';
  }
}

=== FILE: strings.dfy ===
/**
 * Go's `strings.Split` with a one-character separator, and `strings.Join`
 * as its inverse.
 */
module Strings {

  /** The number of occurrences of `c` in `s`. */
  function Count(s: string, c: char): nat
    decreases |s|
  {
    if s == [] then 0 else (if s[0] == c then 1 else 0) + Count(s[1..], c)
  }

  /**
   * The pieces of `s` between occurrences of `sep`. There is always one more
   * piece than there are separators, so the empty string yields one empty
   * piece and a string of separators yields empty pieces only.
   */
  function Split(s: string, sep: char): (pieces: seq<string>)
    ensures |pieces| == Count(s, sep) + 1
    ensures forall i :: 0 <= i < |pieces| ==> sep !in pieces[i]
    decreases |s|
  {
    if s == [] then [[]]
    else
      var rest := Split(s[1..], sep);
      if s[0] == sep then [[]] + rest
      else [[s[0]] + rest[0]] + rest[1..]
  }

  /** The pieces glued back together with `sep` between neighbours. */
  function Join(pieces: seq<string>, sep: char): string
    decreases |pieces|
  {
    if pieces == [] then []
    else if |pieces| == 1 then pieces[0]
    else pieces[0] + [sep] + Join(pieces[1..], sep)
  }

  /** Splitting loses nothing: joining the pieces restores the string. */
  lemma {:induction false} JoinSplit(s: string, sep: char)
    ensures Join(Split(s, sep), sep) == s
    decreases |s|
  {
    if s != [] {
      JoinSplit(s[1..], sep);
      if s[0] == sep {
        JoinAfterSeparator(s, sep);
      } else {
        JoinAfterOther(s, sep);
      }
    }
  }

  lemma JoinAfterSeparator(s: string, sep: char)
    requires s != [] && s[0] == sep
    requires Join(Split(s[1..], sep), sep) == s[1..]
    ensures Join(Split(s, sep), sep) == s
  {
    var rest := Split(s[1..], sep);
    var ps := Split(s, sep);
    assert ps == [[]] + rest && ps[1..] == rest;
    assert Join(ps, sep) == [] + [sep] + s[1..];
  }

  lemma JoinAfterOther(s: string, sep: char)
    requires s != [] && s[0] != sep
    requires Join(Split(s[1..], sep), sep) == s[1..]
    ensures Join(Split(s, sep), sep) == s
  {
    var rest := Split(s[1..], sep);
    var ps := Split(s, sep);
    assert ps == [[s[0]] + rest[0]] + rest[1..];
    if |rest| == 1 {
      assert Join(ps, sep) == [s[0]] + rest[0];
    } else {
      assert ps[1..] == rest[1..];
      JoinCons(rest, sep);
      JoinCons(ps, sep);
    }
  }

  lemma JoinCons(pieces: seq<string>, sep: char)
    requires |pieces| >= 2
    ensures Join(pieces, sep) == pieces[0] + [sep] + Join(pieces[1..], sep)
  {
  }

  /** Splitting a string with no separator in it before the remainder `t`. */
  lemma {:induction false} SplitPrefix(p: string, t: string, sep: char)
    requires sep !in p
    ensures Split(p + t, sep) == [p + Split(t, sep)[0]] + Split(t, sep)[1..]
    decreases |p|
  {
    if p != [] {
      SplitPrefix(p[1..], t, sep);
      assert (p + t)[1..] == p[1..] + t;
      assert [p[0]] + (p[1..] + Split(t, sep)[0]) == p + Split(t, sep)[0];
    } else {
      var ps := Split(t, sep);
      assert p + t == t && p + ps[0] == ps[0];
      assert ps == [ps[0]] + ps[1..];
    }
  }

  /** Joining pieces that contain no separator, then splitting, gives the pieces back. */
  lemma {:induction false} SplitJoin(pieces: seq<string>, sep: char)
    requires |pieces| >= 1
    requires forall i :: 0 <= i < |pieces| ==> sep !in pieces[i]
    ensures Split(Join(pieces, sep), sep) == pieces
    decreases |pieces|
  {
    var p := pieces[0];
    if |pieces| == 1 {
      SplitPrefix(p, [], sep);
      assert p + [] == p;
    } else {
      var tail := Join(pieces[1..], sep);
      var rest := [sep] + tail;
      assert Join(pieces, sep) == p + rest;
      SplitJoin(pieces[1..], sep);
      assert rest[0] == sep && rest[1..] == tail;
      assert Split(rest, sep) == [[]] + pieces[1..];
      SplitPrefix(p, rest, sep);
      assert p + [] == p;
      assert Split(p + rest, sep) == [p] + pieces[1..];
    }
  }

  /** Text appended after the last separator lands in the last piece. */
  lemma {:induction false} JoinAppend(pieces: seq<string>, t: string, sep: char)
    requires |pieces| >= 1
    ensures Join(pieces, sep) + t == Join(pieces[..|pieces| - 1] + [pieces[|pieces| - 1] + t], sep)
    decreases |pieces|
  {
    if |pieces| > 1 {
      JoinAppend(pieces[1..], t, sep);
      var q := pieces[..|pieces| - 1] + [pieces[|pieces| - 1] + t];
      assert q[1..] == pieces[1..][..|pieces| - 2] + [pieces[|pieces| - 1] + t];
    }
  }
}

=== FILE: wrappers.dfy ===
/** Failure-carrying values shared by the parser and the monitor. */
module Wrappers {

  /** A value that may be absent. */
  datatype Option<+T> = None | Some(value: T)

  /** Either a value or the error that prevented computing it. */
  datatype Result<+R, +E> = Success(value: R) | Failure(error: E)
}
